=== FILE: README.md ===
# Invite-tracker bot: verified model of its counting core

The bot watches Telegram groups. When someone adds members to a group, it
credits the person who added them with one invite per member. Anyone can then
open a per-group leaderboard of the top ten inviters from a button. The
counters live in one in-memory table, `group_stats`, keyed by chat and then by
user. The table is written to a JSON file after every credit and read back at
start-up.

This project models that core in Dafny and proves properties of it:

- `InviteTable` (`invite_table.dfy`): the counter table and the rule that
  attributes a join event.
  - A group's counters are an insertion-ordered list of `(user, count)`
    entries, because the leaderboard's tie order depends on dict insertion
    order.
  - `Put` is the dict assignment `d[u] = v`.
  - `Credit` is the effect of one joining member; `Event` is the effect of one
    whole new-members message.
- `Leaderboard` (`leaderboard.dfy`): the ranking behind the button.
  - Python's stable `sorted(..., reverse=True)` by count is modelled as an
    insertion sort.
  - The cut to ten entries, and the rank labels (medals for the first three
    ranks, `"{i+1}."` after that).
- `Callback` (`callback.dfy`): the button payload. It is written as
  `"leaderboard_" + str(chat_id)` and read back as
  `int(data.split('_')[1])`.
- `Options` (`options.dfy`): the `Option` type. `None` stands where Python
  raises or a key is missing.
- `Numerals` (`numerals.dfy`): Python's `str` and `int` on integers. `int`
  accepts an optional sign and single underscores between digits. Around the
  number it strips space, tab, line feed, vertical tab, form feed and carriage
  return, and nothing else.
- `JsonObjects` (`json.dfy`): how `json.load` turns the members of a JSON
  object into a dict. A name that appears twice keeps the position of its
  first appearance and takes its last value.
- `Persistence` (`persistence.dfy`): the key conversion in `save_stats` and
  `load_stats`. A JSON object is an ordered list of (name, value) members.
  `Decode` is what `json.load` returns for the file.
- `InviteBot` (`bot.dfy`): the `GroupStats` class holding `group_stats`, with
  three methods:
  - `HandleNewMembers`: the loop of `handle_new_members`;
  - `ShowLeaderboard`: the `show_leaderboard` handler;
  - `Load`: `load_stats` on the file's objects, with its loop in `LoadChats`.

  Each method is proved against the functions above.

Facts about `bot.py` that shape the model:

- Ties on the leaderboard keep the order in which users first got a count.
  No other tie-break is applied.
- `bot.py` has no deduplication of redelivered events, no invite threshold or
  gate, no leaderboard cache and no seven-day statistics, so the model has
  none either.
- Counts are unbounded integers. A loaded file can carry any integer, so
  "counts never decrease" is proved per event (`EventMonotone`), not as a
  global invariant.

## Model

| member | source | states |
|---|---|---|
| InviteBot.GroupStats.constructor | bot.py:8 | The table starts with no chats, so every count reads 0 |
| InviteTable.CountOf | bot.py:8 | A user not in a chat's table reads 0 (the `defaultdict(int)` default); a listed user reads its stored count |
| InviteTable.Count | bot.py:8 | A chat never seen reads 0 for every user |
| InviteTable.PutShape | bot.py:40 | `d[u] = v` appends an unlisted user at the end; for a listed user it replaces that user's entry in place and leaves every other entry alone |
| InviteTable.PutReads | bot.py:40 | After `d[u] = v`: each user is still listed once, `u` reads `v`, and every other user reads what it read before |
| InviteTable.BotNeverCounts | bot.py:32-33 | A bot member leaves the whole table unchanged |
| InviteTable.LinkJoinUnchanged | bot.py:52-64 | A link join (the sender is the joining member) leaves the whole table unchanged |
| InviteTable.InvitedCountsOnce | bot.py:36-40 | A member added by someone else raises the sender's count in that chat by exactly 1. Every other (chat, user) count is unchanged, the chat is created if it was missing, and the sender is listed afterwards |
| InviteTable.CreditValid | bot.py:40 | Crediting keeps every chat's table free of repeated users |
| InviteTable.EventValid | bot.py:30-40 | A whole event keeps every chat's table free of repeated users |
| InviteTable.EventCounts | bot.py:30-40 | After one new-members event the sender's count has risen by exactly the number of members that are neither bots nor the sender. Nothing else changes, and the chat appears only if someone was credited |
| InviteTable.EventMonotone | bot.py:30-40 | No count goes down across an event |
| InviteTable.UncreditedEventUnchanged | bot.py:30-64 | An event made only of bots and link joins leaves the table exactly as it was |
| InviteBot.ReplyTo | bot.py:46-64 | A non-bot member gets exactly one reply naming that member: a thank-you exactly when it was invited by someone else, otherwise a welcome |
| InviteBot.ThanksTotal | bot.py:36-48 | The total a thank-you quotes is the sender's count before that member plus one |
| InviteBot.ThanksCountUp | bot.py:46-51 | The thank-you replies of one event are one per credited member. They quote the sender's running total: the old count plus 1, plus 2, and so on |
| InviteBot.CreditedChatNonEmpty | bot.py:40 | An event that credited someone leaves the sender listed in the chat's table |
| InviteBot.InviteOpensLeaderboard | bot.py:43 | After an event that credited someone, the button's payload parses back to the chat, and that chat's table is non-empty and lists the sender with the credited count added |
| InviteBot.GroupStats.HandleMember | bot.py:32-64 | One member of the event: the table becomes `Credit` of the old table, and the replies are none for a bot, otherwise exactly `ReplyTo` on the old table |
| InviteBot.GroupStats.HandleNewMembers | bot.py:25-64 | The loop over the new members leaves the table equal to `Event` of the old table and returns exactly the replies `Replies` describes; the table invariant is kept |
| Leaderboard.Insert | bot.py:78 | Inserting into a list sorted by count (highest first) keeps it sorted and adds exactly one element |
| Leaderboard.SortByCount | bot.py:78 | The sorted list is ordered by count, highest first, and is a permutation of the table's entries |
| Leaderboard.SortIsStable | bot.py:78 | For every count, the entries with that count appear in the sorted list in exactly their original order (Python's sort is stable) |
| Leaderboard.TopInviters | bot.py:78 | The leaderboard holds min(10, n) entries for a table of n entries |
| Leaderboard.TopInvitersFromTable | bot.py:78 | Every shown entry is in the chat's table with the count the table holds for that user, and no user is shown twice |
| Leaderboard.TopInvitersBest | bot.py:78 | The shown entries are in descending count order, and no entry left out has a larger count than the last one shown |
| Leaderboard.TopInvitersKeepOrder | bot.py:78 | Ties keep insertion order: the shown entries with a given count are the first entries of the table with that count |
| Leaderboard.RankLabelsDistinct | bot.py:81-90 | Different ranks get different labels: three medals, then `"4."`, `"5."` and so on |
| InviteBot.RankRows | bot.py:83-91 | The loop over the top inviters gives one row per entry, in order: row i carries rank i's label and the i-th entry's user and count |
| InviteBot.GroupStats.ShowLeaderboard | bot.py:66-96 | Unparsable callback data (Python raises) is reported apart. An unknown chat or an empty table gives the no-invites answer. Otherwise row i carries rank i's label and the i-th entry of the top list. The table is not modified: the membership test does not create the chat |
| Callback.Split | bot.py:71 | `str.split` yields at least one piece and no piece contains the separator |
| Callback.JoinSplit | bot.py:71 | Joining the pieces of a split with the separator gives back the original string |
| Callback.Encode | bot.py:43 | The payload starts with `leaderboard_` |
| Callback.ParseEncode | bot.py:71 | Reading the chat id back from the payload written at bot.py:43 and bot.py:54 gives the chat id, negative ids included |
| Numerals.IntToString | bot.py:43 | `str(n)` starts with `-` exactly for negative n; every other character is a decimal digit, and there is no leading zero except in `"0"` itself |
| Numerals.ParseIntOfIntToString | bot.py:21 | `int(str(n)) == n` for every integer |
| Numerals.IntToStringInjective | bot.py:12 | Different ids are written as different keys |
| Numerals.ParseIntPadded | bot.py:71 | `int` reads a number written with leading and trailing ASCII whitespace (space, tab, line feed, vertical tab, form feed, carriage return) as the number itself |
| Numerals.SeparatorNotStripped | bot.py:71 | A number preceded by one of the characters U+001C to U+001F is rejected: `int` does not strip them |
| JsonObjects.JsonObjectReads | bot.py:19 | In the dict `json.load` returns, each name reads the value the object gave it last, and a name the object does not use is absent |
| JsonObjects.JsonObjectDistinct | bot.py:19 | The dict `json.load` returns has no repeated name |
| JsonObjects.JsonObjectOfDistinct | bot.py:19 | An object without repeated names loads as written, members in the same order |
| Persistence.SaveUsers | bot.py:12 | A chat's object in the file has one member per entry of the chat's table |
| Persistence.SaveDoc | bot.py:12 | The file has one member per chat written |
| Persistence.SaveUsersDistinct | bot.py:12 | A chat table without repeated users is written with distinct names |
| Persistence.DecodeSaveDoc | bot.py:12-19 | A file written by `save_stats` from a table whose chats are listed once has no repeated name, so `json.load` returns it as written |
| Persistence.LoadUsers | bot.py:21 | A chat's object loaded from the file lists each user once. A repeated key overwrites the count and keeps its first position |
| Persistence.LoadUsersSucceeds | bot.py:21 | A chat's object loads exactly when every one of its keys is an integer literal |
| Persistence.LoadIntoSucceeds | bot.py:20-21 | Loading the dict `json.load` returned completes exactly when every chat key and every user key in it is an integer literal |
| Persistence.LoadFileSucceeds | bot.py:16-23 | Loading the file completes exactly when every chat name in it is an integer literal, and so is every user name of the last object the file gives that chat name |
| Persistence.LoadIntoValid | bot.py:20-21 | Loading keeps every chat's table free of repeated users |
| Persistence.LoadSaveUsers | bot.py:21 | Loading a saved chat table gives back the same entries in the same order |
| Persistence.LoadSaveDoc | bot.py:20-21 | Loading a saved file over any table replaces exactly the saved chats with the tables they had |
| Persistence.SaveLoadRoundTrip | bot.py:12-21 | Loading, into the empty table, the dict saved from the whole table gives back the table exactly |
| Persistence.FileRoundTrip | bot.py:10-23 | Saving the whole table to the file and loading the file at start-up gives back the table exactly |
| InviteBot.LoadIntoStopped | bot.py:20-21 | Once loading has stopped at a bad key, the rest of the file changes nothing |
| InviteBot.GroupStats.LoadChats | bot.py:20-21 | The loop over the loaded dict's chats leaves the table and the success flag that `LoadInto` describes, and keeps the table invariant |
| InviteBot.GroupStats.Load | bot.py:16-23 | Loading the file leaves the table and success flag that `LoadInto` gives for what `json.load` returns (`Decode`), and keeps the table invariant |

## Left out

- The Telegram API is not modelled: updates, `reply_text`, `edit_message_text`, `get_chat`, `query.answer`, the "Back" button and `close_message`. Nor are the text and Markdown of the messages.
- File I/O and JSON text are not modelled. The file is given as its objects' (name, value) members in file order, and every count in it is assumed to be a JSON integer. Malformed JSON, which makes `json.load` raise, is not modelled.
- InviteBot.GroupStats.HandleNewMembers: assumes every call in the loop returns. `handle_new_members` has no `try` around `save_stats()` (bot.py:41) or `reply_text` (bot.py:46, bot.py:57). If one of them raises, for example under Telegram's flood control, without the right to post, or on a disk error, the loop ends after the current member. That member's credit stands; later members are neither credited nor answered. `HandleNewMembers`, `EventCounts` and `ThanksCountUp` describe a completed event; an interrupted one ends as `Event` of the members up to and including the one being handled.
- `save_stats` is called after every credit (bot.py:41). The file it writes is what `SaveDoc` gives for the current table; the write itself is I/O and is not modelled.
- Persistence.SaveDoc: takes the order of the chats as a parameter. The chats are a map here, and Python's order of the outer dict is only observable in the file.
- A missing file (`FileNotFoundError`, bot.py:22-23) means no file at all, so `Load` is simply not called. Any other exception from `load_stats` is reported as `ok == false`, with the chats loaded so far kept. In `bot.py` that exception escapes `main()` at bot.py:104 before the bot starts, so no handler ever sees the partly loaded table.
- Numerals.ParseInt: models `int` on strings of ASCII characters only. On a string holding a non-ASCII character, Python's `int` also strips Unicode whitespace (U+001C to U+001F among it) and accepts other Unicode decimal digits; the model rejects every such string.
- Numerals.ParseIntOfIntToString: holds for every integer in the model. CPython 3.11 and later refuse to convert integers of more than 4300 decimal digits with `str` and `int` by default, so there the round trip holds only up to that size.
- Numerals.IntToString: has no digit limit; CPython 3.11 and later raise `ValueError` for more than 4300 digits by default.
- Reading the bot token from the environment, `main` and the application set-up are not modelled.
- Concurrency between handlers is not modelled; each handler runs to completion on the table.
- The callback handler's user-name lookup (`get_chat`, falling back to "Unknown User") is I/O. A row carries the user id instead.

=== FILE: bot.dfy ===
/** The bot's running state, `group_stats`, and the handlers that read and
    update it: the new-members handler, the leaderboard button and the start-up
    load of the saved file. */
module InviteBot {
  import opened Options
  import opened Numerals
  import opened InviteTable
  import opened Leaderboard
  import opened Callback
  import opened Persistence

  /** The reply sent for one joining member that is not a bot: a thank-you to
      the inviter carrying the inviter's new total, or a welcome for a member
      who came in through a link. */
  datatype Reply =
    | Thanks(member: UserId, total: int)
    | Welcome(member: UserId)

  /** One line of the leaderboard: the rank label, the user and the count. */
  datatype Row = Row(rank: string, user: UserId, count: int)

  /** What pressing the leaderboard button shows. `Unparsable` is the case in
      which the callback data does not name a chat and the handler raises. */
  datatype Board =
    | Unparsable
    | NoInvites
    | Ranked(rows: seq<Row>)

  /** The reply to member `m`, given the table before `m` is processed. */
  function ReplyTo(t: Table, chat: ChatId, sender: UserId, m: Member): (r: Reply)
    requires !m.isBot
    ensures r.member == m.id
    ensures r.Thanks? <==> m.id != sender
  {
    if m.id != sender then Thanks(m.id, Count(Credit(t, chat, sender, m), chat, sender))
    else Welcome(m.id)
  }

  /** The replies of one new-members event, in member order; bots get none. */
  function Replies(t: Table, chat: ChatId, sender: UserId, ms: seq<Member>): (r: seq<Reply>)
    ensures |r| <= |ms|
    decreases |ms|
  {
    if ms == [] then []
    else
      var init := ms[..|ms| - 1];
      var last := ms[|ms| - 1];
      Replies(t, chat, sender, init)
        + (if last.isBot then [] else [ReplyTo(Event(t, chat, sender, init), chat, sender, last)])
  }

  /** The totals quoted by the thank-you replies, in order. */
  function Totals(rs: seq<Reply>): seq<int>
    decreases |rs|
  {
    if rs == [] then []
    else
      var last := rs[|rs| - 1];
      Totals(rs[..|rs| - 1]) + (if last.Thanks? then [last.total] else [])
  }

  /** The thank-you replies of one event quote the sender's running total:
      one more than before the event, then two more, and so on, one reply per
      credited member. */
  lemma {:induction false} ThanksCountUp(t: Table, chat: ChatId, sender: UserId, ms: seq<Member>)
    requires ValidTable(t)
    ensures var tot := Totals(Replies(t, chat, sender, ms));
      && |tot| == Credited(sender, ms)
      && forall k :: 0 <= k < |tot| ==> tot[k] == Count(t, chat, sender) + k + 1
    decreases |ms|
  {
    if ms != [] {
      var init := ms[..|ms| - 1];
      ThanksCountUp(t, chat, sender, init);
      RepliesLast(t, chat, sender, ms);
      assert Count(Event(t, chat, sender, init), chat, sender) == Count(t, chat, sender) + Credited(sender, init) by {
        EventCounts(t, chat, sender, init);
      }
      var last := ms[|ms| - 1];
      var added := if !last.isBot && last.id != sender then [Count(Event(t, chat, sender, init), chat, sender) + 1] else [];
      CountingOn(Totals(Replies(t, chat, sender, init)), added, Count(t, chat, sender));
    }
  }

  /** The thank-you totals and the credit count of an event, one member more. */
  lemma RepliesLast(t: Table, chat: ChatId, sender: UserId, ms: seq<Member>)
    requires ValidTable(t) && ms != []
    ensures var init := ms[..|ms| - 1];
      var last := ms[|ms| - 1];
      var credited := !last.isBot && last.id != sender;
      && Totals(Replies(t, chat, sender, ms)) == Totals(Replies(t, chat, sender, init))
        + (if credited then [Count(Event(t, chat, sender, init), chat, sender) + 1] else [])
      && Credited(sender, ms) == Credited(sender, init) + (if credited then 1 else 0)
  {
    var init := ms[..|ms| - 1];
    var last := ms[|ms| - 1];
    var before := Replies(t, chat, sender, init);
    if last.isBot {
      assert Replies(t, chat, sender, ms) == before;
    } else {
      var reply := ReplyTo(Event(t, chat, sender, init), chat, sender, last);
      assert Replies(t, chat, sender, ms) == before + [reply];
      TotalsAppend(before, reply);
      if last.id != sender {
        ThanksTotal(t, chat, sender, init, last);
      }
    }
  }

  /** A thank-you quotes the sender's count before the member plus one. */
  lemma ThanksTotal(t: Table, chat: ChatId, sender: UserId, init: seq<Member>, m: Member)
    requires ValidTable(t) && !m.isBot && m.id != sender
    ensures var mid := Event(t, chat, sender, init);
      ReplyTo(mid, chat, sender, m).total == Count(mid, chat, sender) + 1
  {
    EventValid(t, chat, sender, init);
    InvitedCountsOnce(Event(t, chat, sender, init), chat, sender, m);
  }

  /** Appending the next running total to a list of running totals. */
  lemma CountingOn(a: seq<int>, b: seq<int>, base: int)
    requires forall k :: 0 <= k < |a| ==> a[k] == base + k + 1
    requires |b| <= 1 && (|b| == 1 ==> b[0] == base + |a| + 1)
    ensures forall k :: 0 <= k < |a + b| ==> (a + b)[k] == base + k + 1
  {
  }

  lemma TotalsAppend(rs: seq<Reply>, x: Reply)
    ensures Totals(rs + [x]) == Totals(rs) + (if x.Thanks? then [x.total] else [])
  {
    assert (rs + [x])[..|rs|] == rs;
  }

  /** After an event that credited someone, the button it carries opens a
      leaderboard: the payload names the chat and the chat's table lists the
      sender with exactly the credited count added to what it had. */
  lemma InviteOpensLeaderboard(t: Table, chat: ChatId, sender: UserId, ms: seq<Member>)
    requires ValidTable(t) && Credited(sender, ms) > 0
    ensures var r := Event(t, chat, sender, ms);
      && Parse(Encode(chat)) == Some(chat)
      && ChatTable(r, chat) != [] && Listed(r[chat], sender)
      && Count(r, chat, sender) == Count(t, chat, sender) + Credited(sender, ms)
  {
    ParseEncode(chat);
    EventCounts(t, chat, sender, ms);
    CreditedChatNonEmpty(t, chat, sender, ms);
  }

  /** An event that credited someone leaves the sender listed in the chat's table. */
  lemma {:induction false} CreditedChatNonEmpty(t: Table, chat: ChatId, sender: UserId, ms: seq<Member>)
    requires ValidTable(t) && Credited(sender, ms) > 0
    ensures var r := Event(t, chat, sender, ms); chat in r && Listed(r[chat], sender)
    decreases |ms|
  {
    var init := ms[..|ms| - 1];
    var last := ms[|ms| - 1];
    if !last.isBot && last.id != sender {
      EventValid(t, chat, sender, init);
      InvitedCountsOnce(Event(t, chat, sender, init), chat, sender, last);
    } else {
      CreditedChatNonEmpty(t, chat, sender, init);
    }
  }

  /** One turn of the loop of `handle_new_members`, as the table and the
      replies see it. */
  lemma EventStep(t: Table, chat: ChatId, sender: UserId, ms: seq<Member>, i: nat)
    requires i < |ms|
    ensures var mid := Event(t, chat, sender, ms[..i]);
      && Event(t, chat, sender, ms[..i + 1]) == Credit(mid, chat, sender, ms[i])
      && Replies(t, chat, sender, ms[..i + 1]) == Replies(t, chat, sender, ms[..i])
        + (if ms[i].isBot then [] else [ReplyTo(mid, chat, sender, ms[i])])
  {
    assert ms[..i + 1][..i] == ms[..i];
  }

  /** Once the loop of `load_stats` has stopped at a bad key, the rest of the
      file changes nothing. */
  lemma {:induction false} LoadIntoStopped(t: Table, doc: Document, n: nat)
    requires n <= |doc| && !LoadInto(t, doc[..n]).ok
    ensures LoadInto(t, doc) == LoadInto(t, doc[..n])
    decreases |doc|
  {
    if n < |doc| {
      var init := doc[..|doc| - 1];
      assert init[..n] == doc[..n];
      LoadIntoStopped(t, init, n);
    } else {
      assert doc[..n] == doc;
    }
  }

  /** The loop over the top inviters in `show_leaderboard`: one row per
      entry, in order, under the label of its rank. */
  method RankRows(top: seq<Entry>) returns (rows: seq<Row>)
    ensures |rows| == |top|
    ensures forall i :: 0 <= i < |top| ==> rows[i] == Row(RankLabel(i), top[i].user, top[i].count)
  {
    rows := [];
    for i := 0 to |top|
      invariant |rows| == i
      invariant forall j :: 0 <= j < i ==> rows[j] == Row(RankLabel(j), top[j].user, top[j].count)
    {
      rows := rows + [Row(RankLabel(i), top[i].user, top[i].count)];
    }
  }

  /** `group_stats`: for each chat, its insertion-ordered counter table. */
  class GroupStats {
    var chats: Table

    ghost predicate Valid()
      reads this
    {
      ValidTable(chats)
    }

    /** `defaultdict(lambda: defaultdict(int))`: no chat, no count. */
    constructor ()
      ensures Valid() && chats == map[]
    {
      chats := map[];
    }

    /** The body of the loop of `handle_new_members` for one member `m`:
        a bot is skipped, a link join earns nothing and gets a welcome, any
        other member adds one to the sender's count in the chat and gets a
        thank-you quoting the sender's new total. */
    method HandleMember(chat: ChatId, sender: UserId, m: Member) returns (reply: seq<Reply>)
      modifies this
      ensures chats == Credit(old(chats), chat, sender, m)
      ensures reply == if m.isBot then [] else [ReplyTo(old(chats), chat, sender, m)]
    {
      if m.isBot {
        return [];
      }
      if sender != m.id {
        var s := ChatTable(chats, chat);
        chats := chats[chat := Put(s, sender, CountOf(s, sender) + 1)];
        reply := [Thanks(m.id, Count(chats, chat, sender))];
      } else {
        reply := [Welcome(m.id)];
      }
    }

    /** `handle_new_members`: the members of one event, in order. */
    method HandleNewMembers(chat: ChatId, sender: UserId, members: seq<Member>) returns (replies: seq<Reply>)
      requires Valid()
      modifies this
      ensures Valid()
      ensures chats == Event(old(chats), chat, sender, members)
      ensures replies == Replies(old(chats), chat, sender, members)
    {
      ghost var t0 := chats;
      replies := [];
      var i := 0;
      while i < |members|
        invariant 0 <= i <= |members|
        invariant chats == Event(t0, chat, sender, members[..i])
        invariant replies == Replies(t0, chat, sender, members[..i])
      {
        EventStep(t0, chat, sender, members, i);
        var reply := HandleMember(chat, sender, members[i]);
        replies := replies + reply;
        i := i + 1;
      }
      assert members[..i] == members;
      EventValid(t0, chat, sender, members);
    }

    /** `show_leaderboard`: reads the chat id from the button's payload; an
        unknown chat or an empty table shows the no-invites message, and
        otherwise the ten best inviters are listed, each under its rank label.
        The table is only read: looking a chat up does not create it. */
    method ShowLeaderboard(data: string) returns (board: Board)
      ensures Parse(data).None? <==> board.Unparsable?
      ensures Parse(data).Some? ==> (board.NoInvites? <==> ChatTable(chats, Parse(data).value) == [])
      ensures board.Ranked? ==>
        var top := TopInviters(ChatTable(chats, Parse(data).value));
        && |board.rows| == |top| > 0
        && forall i :: 0 <= i < |top| ==> board.rows[i] == Row(RankLabel(i), top[i].user, top[i].count)
    {
      var parsed := Parse(data);
      if parsed.None? {
        return Unparsable;
      }
      var chat := parsed.value;
      if chat !in chats || chats[chat] == [] {
        return NoInvites;
      }
      var top := TopInviters(chats[chat]);
      var rows := RankRows(top);
      board := Ranked(rows);
    }

    /** `load_stats` on the file's objects: `json.load` collapses repeated
        names, then the chats are loaded in the dict's order. */
    method Load(file: Document) returns (ok: bool)
      requires Valid()
      modifies this
      ensures Valid()
      ensures Loaded(chats, ok) == LoadInto(old(chats), Decode(file))
    {
      ok := LoadChats(Decode(file));
    }

    /** The loop of `load_stats`: each chat's table replaces the one held for
        that chat id; at the first key that is not an integer the loop stops
        with what it has loaded so far. */
    method LoadChats(doc: Document) returns (ok: bool)
      requires Valid()
      modifies this
      ensures Valid()
      ensures Loaded(chats, ok) == LoadInto(old(chats), doc)
    {
      ghost var t0 := chats;
      var i := 0;
      while i < |doc|
        invariant 0 <= i <= |doc|
        invariant LoadInto(t0, doc[..i]) == Loaded(chats, true)
        invariant ValidTable(chats)
      {
        assert doc[..i + 1][..i] == doc[..i];
        var users := LoadUsers(doc[i].1);
        var chat := ParseInt(doc[i].0);
        if chat.None? || users.None? {
          LoadIntoStopped(t0, doc, i + 1);
          return false;
        }
        chats := chats[chat.value := users.value];
        i := i + 1;
      }
      assert doc[..i] == doc;
      return true;
    }
  }
}

=== FILE: callback.dfy ===
/** The payload of the "View Leaderboard" button: written as
    `"leaderboard_" + str(chat_id)` and read back as `int(data.split('_')[1])`. */
module Callback {
  import opened Options
  import opened Numerals

  const Separator: char := '_'
  const Tag: string := "leaderboard"

  /** Python's `s.split(sep)`: the pieces between occurrences of `sep`; there is
      always at least one piece, and no piece contains `sep`. */
  function Split(s: string, sep: char): (r: seq<string>)
    ensures |r| >= 1
    ensures forall i :: 0 <= i < |r| ==> sep !in r[i]
  {
    if s == [] then [[]]
    else
      var tail := Split(s[1..], sep);
      if s[0] == sep then [[]] + tail
      else [[s[0]] + tail[0]] + tail[1..]
  }

  /** `sep.join(parts)`, the inverse of Split. */
  function Join(parts: seq<string>, sep: char): string
    requires |parts| >= 1
  {
    if |parts| == 1 then parts[0] else parts[0] + [sep] + Join(parts[1..], sep)
  }

  /** The callback data of the leaderboard button for a chat. */
  function Encode(chat: int): (r: string)
    ensures |r| > |Tag| + 1 && r[..|Tag| + 1] == Tag + [Separator]
  {
    Tag + [Separator] + IntToString(chat)
  }

  /** `int(data.split('_')[1])`: the chat id named by the callback data; None
      where Python raises (fewer than two pieces, or a piece that is not an
      integer). Pieces after the second are ignored, as in the source. */
  function Parse(data: string): Option<int> {
    var parts := Split(data, Separator);
    if |parts| < 2 then None else ParseInt(parts[1])
  }

  /** Splitting then joining gives back the string. */
  lemma {:induction false} JoinSplit(s: string, sep: char)
    ensures Join(Split(s, sep), sep) == s
  {
    if s != [] {
      JoinSplit(s[1..], sep);
      var tail := Split(s[1..], sep);
      if s[0] == sep {
        assert Split(s, sep)[1..] == tail;
        assert s == [sep] + s[1..];
      } else if |tail| == 1 {
        assert s == [s[0]] + s[1..];
      } else {
        var r := Split(s, sep);
        assert r[1..] == tail[1..];
        assert s == [s[0]] + s[1..];
      }
    }
  }

  lemma {:induction false} SplitWithoutSeparator(s: string, sep: char)
    requires sep !in s
    ensures Split(s, sep) == [s]
  {
    if s != [] {
      SplitWithoutSeparator(s[1..], sep);
      assert s == [s[0]] + s[1..];
    }
  }

  lemma {:induction false} SplitAtFirst(a: string, sep: char, b: string)
    requires sep !in a
    ensures Split(a + [sep] + b, sep) == [a] + Split(b, sep)
  {
    if a == [] {
      assert a + [sep] + b == [sep] + b;
      assert ([sep] + b)[1..] == b;
    } else {
      SplitAtFirst(a[1..], sep, b);
      assert (a + [sep] + b)[1..] == a[1..] + [sep] + b;
      assert a == [a[0]] + a[1..];
    }
  }

  /** The button's payload names the chat it was made for, negative chat ids
      included: `int(("leaderboard_" + str(c)).split('_')[1]) == c`. */
  lemma ParseEncode(chat: int)
    ensures Parse(Encode(chat)) == Some(chat)
  {
    var digits := IntToString(chat);
    assert Separator !in Tag;
    assert Separator !in digits by {
      assert forall i :: 0 <= i < |digits| ==> digits[i] != Separator;
    }
    SplitAtFirst(Tag, Separator, digits);
    SplitWithoutSeparator(digits, Separator);
    ParseIntOfIntToString(chat);
  }
}

=== FILE: invite_table.dfy ===
/** The per-group invite counters and the attribution rule for join events.
    A group's counters are kept as an insertion-ordered list of entries, the
    way a Python dict keeps its keys: a new user is appended, an existing
    user's count is updated in place. */
module InviteTable {

  type ChatId = int
  type UserId = int

  /** One (user, count) pair of a group's counter table. */
  datatype Entry = Entry(user: UserId, count: int)

  /** A user taking part in a new-members event. */
  datatype Member = Member(id: UserId, isBot: bool)

  /** The whole counter state: chat id to that chat's ordered counter table. */
  type Table = map<ChatId, seq<Entry>>

  /** No user appears twice in a group's counter table. */
  predicate Unique(s: seq<Entry>) {
    forall i, j :: 0 <= i < j < |s| ==> s[i].user != s[j].user
  }

  predicate Listed(s: seq<Entry>, u: UserId) {
    exists i :: 0 <= i < |s| && s[i].user == u
  }

  predicate ValidTable(t: Table) {
    forall c :: c in t ==> Unique(t[c])
  }

  /** `d[u]` on a `defaultdict(int)`: the stored count, or 0 for a user never seen. */
  function CountOf(s: seq<Entry>, u: UserId): (r: int)
    ensures !Listed(s, u) ==> r == 0
    ensures forall i :: 0 <= i < |s| && s[i].user == u && Unique(s) ==> r == s[i].count
  {
    if s == [] then 0
    else if s[0].user == u then s[0].count
    else CountOf(s[1..], u)
  }

  /** `d[u] = v` on a dict: an existing user keeps its position and gets the new
      count; a new user is appended at the end. */
  function Put(s: seq<Entry>, u: UserId, v: int): seq<Entry> {
    if s == [] then [Entry(u, v)]
    else if s[0].user == u then [Entry(u, v)] + s[1..]
    else [s[0]] + Put(s[1..], u, v)
  }

  /** `d[u] = v` appends a user not yet listed; for a listed user it replaces
      that user's entry where it stands and leaves every other entry alone. */
  lemma {:induction false} PutShape(s: seq<Entry>, u: UserId, v: int)
    ensures var r := Put(s, u, v);
      && (!Listed(s, u) ==> r == s + [Entry(u, v)])
      && (Unique(s) && Listed(s, u) ==>
        |r| == |s| && forall i :: 0 <= i < |s| ==> r[i] == (if s[i].user == u then Entry(u, v) else s[i]))
  {
    if s != [] {
      if s[0].user == u {
        assert Unique(s) ==> !Listed(s[1..], u);
      } else {
        assert Listed(s, u) ==> Listed(s[1..], u);
        assert !Listed(s, u) ==> !Listed(s[1..], u);
        assert Unique(s) ==> Unique(s[1..]);
        PutShape(s[1..], u, v);
      }
    }
  }

  lemma PutUnique(s: seq<Entry>, u: UserId, v: int)
    requires Unique(s)
    ensures Unique(Put(s, u, v)) && Listed(Put(s, u, v), u)
  {
    PutShape(s, u, v);
    var r := Put(s, u, v);
    if Listed(s, u) {
      var k :| 0 <= k < |s| && s[k].user == u;
      assert r[k].user == u;
    } else {
      assert r[|s|].user == u;
    }
  }

  /** After `d[u] = v` the table still lists each user once, `d[u]` reads `v`
      and every other user reads what it read before. */
  lemma PutReads(s: seq<Entry>, u: UserId, v: int)
    requires Unique(s)
    ensures var r := Put(s, u, v);
      && Unique(r) && Listed(r, u)
      && CountOf(r, u) == v
      && forall w :: w != u ==> CountOf(r, w) == CountOf(s, w)
  {
    PutUnique(s, u, v);
    PutOwn(s, u, v);
    forall w | w != u
      ensures CountOf(Put(s, u, v), w) == CountOf(s, w)
    {
      PutOther(s, u, v, w);
    }
  }

  lemma {:induction false} PutOwn(s: seq<Entry>, u: UserId, v: int)
    ensures CountOf(Put(s, u, v), u) == v
  {
    if s != [] && s[0].user != u {
      PutOwn(s[1..], u, v);
      assert ([s[0]] + Put(s[1..], u, v))[1..] == Put(s[1..], u, v);
    }
  }

  lemma {:induction false} PutOther(s: seq<Entry>, u: UserId, v: int, w: UserId)
    requires w != u
    ensures CountOf(Put(s, u, v), w) == CountOf(s, w)
  {
    if s != [] {
      if s[0].user == u {
        assert ([Entry(u, v)] + s[1..])[1..] == s[1..];
      } else if s[0].user != w {
        PutOther(s[1..], u, v, w);
        assert ([s[0]] + Put(s[1..], u, v))[1..] == Put(s[1..], u, v);
      }
    }
  }

  /** The counter table of chat `c`; a chat never seen has an empty one. */
  function ChatTable(t: Table, c: ChatId): seq<Entry> {
    if c in t then t[c] else []
  }

  /** `group_stats[c][u]` read through both default dicts. */
  function Count(t: Table, c: ChatId, u: UserId): (r: int)
    ensures c !in t ==> r == 0
  {
    CountOf(ChatTable(t, c), u)
  }

  /** The effect of one joining member on the table: bots and link joins (the
      sender is the joiner) leave it alone, otherwise the sender's count in the
      chat goes up by one, creating the chat and the entry on first use. */
  function Credit(t: Table, chat: ChatId, sender: UserId, m: Member): Table {
    if m.isBot || m.id == sender then t
    else
      var s := ChatTable(t, chat);
      t[chat := Put(s, sender, CountOf(s, sender) + 1)]
  }

  /** Crediting keeps every chat's table free of repeated users. */
  lemma CreditValid(t: Table, chat: ChatId, sender: UserId, m: Member)
    requires ValidTable(t)
    ensures ValidTable(Credit(t, chat, sender, m))
  {
    if !m.isBot && m.id != sender {
      var s := ChatTable(t, chat);
      PutUnique(s, sender, CountOf(s, sender) + 1);
    }
  }

  /** The table after the members of one event are processed in order. */
  function Event(t: Table, chat: ChatId, sender: UserId, ms: seq<Member>): Table
    decreases |ms|
  {
    if ms == [] then t
    else Credit(Event(t, chat, sender, ms[..|ms| - 1]), chat, sender, ms[|ms| - 1])
  }

  /** Processing an event keeps every chat's table free of repeated users. */
  lemma {:induction false} EventValid(t: Table, chat: ChatId, sender: UserId, ms: seq<Member>)
    requires ValidTable(t)
    ensures ValidTable(Event(t, chat, sender, ms))
    decreases |ms|
  {
    if ms != [] {
      EventValid(t, chat, sender, ms[..|ms| - 1]);
      CreditValid(Event(t, chat, sender, ms[..|ms| - 1]), chat, sender, ms[|ms| - 1]);
    }
  }

  /** How many members of the event earn the sender a credit. */
  function Credited(sender: UserId, ms: seq<Member>): (n: nat)
    ensures n <= |ms|
    decreases |ms|
  {
    if ms == [] then 0
    else
      var last := ms[|ms| - 1];
      Credited(sender, ms[..|ms| - 1]) + (if last.isBot || last.id == sender then 0 else 1)
  }

  /** A bot member never changes any count. */
  lemma BotNeverCounts(t: Table, chat: ChatId, sender: UserId, m: Member)
    requires m.isBot
    ensures Credit(t, chat, sender, m) == t
  {
  }

  /** A link join (the member is the sender) leaves the whole table unchanged. */
  lemma LinkJoinUnchanged(t: Table, chat: ChatId, sender: UserId, m: Member)
    requires m.id == sender
    ensures Credit(t, chat, sender, m) == t
  {
  }

  /** A member added by someone else raises exactly the sender's count in that
      chat, by exactly one; every other (chat, user) count is unchanged, and
      the sender appears in the chat's table afterwards. */
  lemma InvitedCountsOnce(t: Table, chat: ChatId, sender: UserId, m: Member)
    requires ValidTable(t) && !m.isBot && m.id != sender
    ensures var r := Credit(t, chat, sender, m);
      && Count(r, chat, sender) == Count(t, chat, sender) + 1
      && (forall c, u :: (c, u) != (chat, sender) ==> Count(r, c, u) == Count(t, c, u))
      && r.Keys == t.Keys + {chat}
      && Listed(r[chat], sender)
  {
    var r := Credit(t, chat, sender, m);
    var s := ChatTable(t, chat);
    PutReads(s, sender, CountOf(s, sender) + 1);
    var s' := Put(s, sender, CountOf(s, sender) + 1);
    assert r == t[chat := s'];
    assert ChatTable(r, chat) == s';
    forall c, u | (c, u) != (chat, sender)
      ensures Count(r, c, u) == Count(t, c, u)
    {
      if c != chat {
        assert ChatTable(r, c) == ChatTable(t, c);
      } else {
        assert CountOf(s', u) == CountOf(s, u);
      }
    }
  }

  /** After one new-members event the sender's count in the chat has risen by
      the number of members that are neither bots nor the sender; nothing else
      changes, and the chat is created only if someone was credited. */
  lemma {:induction false} EventCounts(t: Table, chat: ChatId, sender: UserId, ms: seq<Member>)
    requires ValidTable(t)
    ensures var r := Event(t, chat, sender, ms);
      && Count(r, chat, sender) == Count(t, chat, sender) + Credited(sender, ms)
      && (forall c, u :: (c, u) != (chat, sender) ==> Count(r, c, u) == Count(t, c, u))
      && r.Keys == t.Keys + (if Credited(sender, ms) > 0 then {chat} else {})
    decreases |ms|
  {
    if ms != [] {
      var init := ms[..|ms| - 1];
      var last := ms[|ms| - 1];
      EventCounts(t, chat, sender, init);
      EventValid(t, chat, sender, init);
      var mid := Event(t, chat, sender, init);
      var r := Event(t, chat, sender, ms);
      assert r == Credit(mid, chat, sender, last);
      if !last.isBot && last.id != sender {
        InvitedCountsOnce(mid, chat, sender, last);
        assert Credited(sender, ms) == Credited(sender, init) + 1;
      } else {
        assert r == mid;
        assert Credited(sender, ms) == Credited(sender, init);
      }
      forall c, u | (c, u) != (chat, sender)
        ensures Count(r, c, u) == Count(t, c, u)
      {
        assert Count(r, c, u) == Count(mid, c, u);
      }
    }
  }

  /** Counts never decrease across an event. */
  lemma EventMonotone(t: Table, chat: ChatId, sender: UserId, ms: seq<Member>, c: ChatId, u: UserId)
    requires ValidTable(t)
    ensures Count(Event(t, chat, sender, ms), c, u) >= Count(t, c, u)
  {
    EventCounts(t, chat, sender, ms);
  }

  /** An event made only of bots and link joins leaves the whole table as it was. */
  lemma {:induction false} UncreditedEventUnchanged(t: Table, chat: ChatId, sender: UserId, ms: seq<Member>)
    requires forall i :: 0 <= i < |ms| ==> ms[i].isBot || ms[i].id == sender
    ensures Event(t, chat, sender, ms) == t
    decreases |ms|
  {
    if ms != [] {
      UncreditedEventUnchanged(t, chat, sender, ms[..|ms| - 1]);
    }
  }
}

=== FILE: json.dfy ===
/** How `json.load` turns the members of a JSON object, as they appear in the
    file, into a dict: a name that appears again keeps the position of its
    first appearance and takes the value of its last one. */
module JsonObjects {
  import opened Options

  /** An object's members in order: (name, value) pairs. */
  type Members<V> = seq<(string, V)>

  /** No name appears twice, as in every dict. */
  predicate DistinctNames<V>(m: Members<V>) {
    forall i, j :: 0 <= i < j < |m| ==> m[i].0 != m[j].0
  }

  predicate Named<V>(m: Members<V>, k: string) {
    exists i :: 0 <= i < |m| && m[i].0 == k
  }

  /** `d[k] = v` on the dict being built: a name already present keeps its
      position and takes the new value, a new name is appended. This is the
      rule `InviteTable.Put` follows for the counter table; it is stated again
      here for string names and values of any type, because the counter table
      holds `Entry` records keyed by integer ids and its lemmas are about
      counts. Likewise `Lookup` is `d.get(k)`, where `InviteTable.CountOf` is
      the `defaultdict(int)` read that gives 0 for a missing user. */
  function Assign<V>(obj: Members<V>, k: string, v: V): Members<V> {
    if obj == [] then [(k, v)]
    else if obj[0].0 == k then [(k, v)] + obj[1..]
    else [obj[0]] + Assign(obj[1..], k, v)
  }

  /** The dict `json.load` builds from an object's members. */
  function JsonObject<V>(members: Members<V>): Members<V>
    decreases |members|
  {
    if members == [] then []
    else
      var last := members[|members| - 1];
      Assign(JsonObject(members[..|members| - 1]), last.0, last.1)
  }

  /** `d.get(k)` on a dict given by its members: the first member named `k`. */
  function Lookup<V>(obj: Members<V>, k: string): Option<V> {
    if obj == [] then None
    else if obj[0].0 == k then Some(obj[0].1)
    else Lookup(obj[1..], k)
  }

  /** The value the file gives to `k` last, if it names `k` at all. */
  function LastValue<V>(members: Members<V>, k: string): Option<V>
    decreases |members|
  {
    if members == [] then None
    else if members[|members| - 1].0 == k then Some(members[|members| - 1].1)
    else LastValue(members[..|members| - 1], k)
  }

  lemma {:induction false} AssignOwn<V>(obj: Members<V>, k: string, v: V)
    ensures Lookup(Assign(obj, k, v), k) == Some(v)
  {
    if obj != [] && obj[0].0 != k {
      AssignOwn(obj[1..], k, v);
      assert ([obj[0]] + Assign(obj[1..], k, v))[1..] == Assign(obj[1..], k, v);
    }
  }

  lemma {:induction false} AssignOther<V>(obj: Members<V>, k: string, v: V, w: string)
    requires w != k
    ensures Lookup(Assign(obj, k, v), w) == Lookup(obj, w)
  {
    if obj != [] {
      if obj[0].0 == k {
        assert ([(k, v)] + obj[1..])[1..] == obj[1..];
      } else if obj[0].0 != w {
        AssignOther(obj[1..], k, v, w);
        assert ([obj[0]] + Assign(obj[1..], k, v))[1..] == Assign(obj[1..], k, v);
      }
    }
  }

  /** Every name of the file reads the value it was given last; a name the
      file does not use is absent. */
  lemma {:induction false} JsonObjectReads<V>(members: Members<V>, k: string)
    ensures Lookup(JsonObject(members), k) == LastValue(members, k)
    decreases |members|
  {
    if members != [] {
      var init := members[..|members| - 1];
      var last := members[|members| - 1];
      JsonObjectReads(init, k);
      if last.0 == k {
        AssignOwn(JsonObject(init), k, last.1);
      } else {
        AssignOther(JsonObject(init), last.0, last.1, k);
      }
    }
  }

  lemma {:induction false} AssignNames<V>(obj: Members<V>, k: string, v: V, w: string)
    ensures Named(Assign(obj, k, v), w) <==> Named(obj, w) || w == k
  {
    var r := Assign(obj, k, v);
    if obj == [] {
      assert r[0].0 == k;
    } else if obj[0].0 == k {
      assert r[0].0 == k;
      if Named(obj, w) {
        var i :| 0 <= i < |obj| && obj[i].0 == w;
        assert r[i].0 == w;
      }
      if Named(r, w) {
        var i :| 0 <= i < |r| && r[i].0 == w;
        assert i == 0 || obj[i].0 == w;
      }
    } else {
      var rest := Assign(obj[1..], k, v);
      AssignNames(obj[1..], k, v, w);
      assert r == [obj[0]] + rest;
      assert r[0].0 == obj[0].0;
      if Named(obj, w) && w != obj[0].0 {
        var i :| 0 <= i < |obj| && obj[i].0 == w;
        assert obj[1..][i - 1].0 == w;
      }
      if Named(rest, w) {
        var i :| 0 <= i < |rest| && rest[i].0 == w;
        assert r[i + 1].0 == w;
      }
      if Named(obj[1..], w) {
        var i :| 0 <= i < |obj[1..]| && obj[1..][i].0 == w;
        assert obj[i + 1].0 == w;
      }
      if Named(r, w) && w != obj[0].0 {
        var i :| 0 <= i < |r| && r[i].0 == w;
        assert rest[i - 1].0 == w;
      }
    }
  }

  lemma {:induction false} AssignDistinct<V>(obj: Members<V>, k: string, v: V)
    requires DistinctNames(obj)
    ensures DistinctNames(Assign(obj, k, v))
  {
    if obj != [] && obj[0].0 != k {
      var rest := Assign(obj[1..], k, v);
      AssignDistinct(obj[1..], k, v);
      forall i | 0 <= i < |obj[1..]| ensures obj[1..][i].0 != obj[0].0 {
        assert obj[1..][i] == obj[i + 1];
      }
      AssignNames(obj[1..], k, v, obj[0].0);
      forall j | 0 <= j < |rest| ensures rest[j].0 != obj[0].0 {
        assert Named(rest, rest[j].0);
      }
      assert Assign(obj, k, v) == [obj[0]] + rest;
    }
  }

  /** The dict `json.load` returns has distinct names. */
  lemma {:induction false} JsonObjectDistinct<V>(members: Members<V>)
    ensures DistinctNames(JsonObject(members))
    decreases |members|
  {
    if members != [] {
      var init := members[..|members| - 1];
      var last := members[|members| - 1];
      JsonObjectDistinct(init);
      AssignDistinct(JsonObject(init), last.0, last.1);
    }
  }

  lemma {:induction false} AssignAbsent<V>(obj: Members<V>, k: string, v: V)
    requires !Named(obj, k)
    ensures Assign(obj, k, v) == obj + [(k, v)]
  {
    if obj != [] {
      assert obj[0].0 != k;
      forall i | 0 <= i < |obj[1..]| ensures obj[1..][i].0 != k {
        assert obj[1..][i] == obj[i + 1];
      }
      AssignAbsent(obj[1..], k, v);
      assert obj == [obj[0]] + obj[1..];
    }
  }

  /** An object whose names are already distinct loads as written. */
  lemma {:induction false} JsonObjectOfDistinct<V>(members: Members<V>)
    requires DistinctNames(members)
    ensures JsonObject(members) == members
    decreases |members|
  {
    if members != [] {
      var init := members[..|members| - 1];
      var last := members[|members| - 1];
      JsonObjectOfDistinct(init);
      forall i | 0 <= i < |init| ensures init[i].0 != last.0 {
        assert init[i] == members[i];
      }
      AssignAbsent(init, last.0, last.1);
      assert members == init + [last];
    }
  }

  /** A name `d.get` finds is the name of one of the dict's members, holding
      the value found. */
  lemma {:induction false} LookupFound<V>(obj: Members<V>, k: string) returns (i: nat)
    requires Lookup(obj, k).Some?
    ensures i < |obj| && obj[i] == (k, Lookup(obj, k).value)
  {
    if obj[0].0 == k {
      i := 0;
    } else {
      var j := LookupFound(obj[1..], k);
      i := j + 1;
    }
  }

  /** In a dict, `d.get` of a member's name gives that member's value. */
  lemma {:induction false} LookupDistinct<V>(obj: Members<V>, i: nat)
    requires DistinctNames(obj) && i < |obj|
    ensures Lookup(obj, obj[i].0) == Some(obj[i].1)
  {
    if i > 0 {
      assert obj[0].0 != obj[i].0;
      forall p, q | 0 <= p < q < |obj[1..]| ensures obj[1..][p].0 != obj[1..][q].0 {
        assert obj[1..][p] == obj[p + 1] && obj[1..][q] == obj[q + 1];
      }
      LookupDistinct(obj[1..], i - 1);
    }
  }
}

=== FILE: leaderboard.dfy ===
/** Ranking of one group's counter table for the leaderboard: a stable sort by
    count, highest first, cut to the first ten, and the label of each rank. */
module Leaderboard {
  import opened InviteTable
  import opened Numerals

  /** How many inviters the leaderboard shows. */
  const PageSize: nat := 10

  /** Labels of the first three ranks (gold, silver and bronze medal). */
  const Medals: seq<string> := ["\U{1F947}", "\U{1F948}", "\U{1F949}"]

  predicate SortedByCount(s: seq<Entry>) {
    forall i, j :: 0 <= i < j < |s| ==> s[i].count >= s[j].count
  }

  /** The entries of `s` whose count is `k`, in the order they appear. */
  function WithCount(s: seq<Entry>, k: int): seq<Entry> {
    if s == [] then [] else (if s[0].count == k then [s[0]] else []) + WithCount(s[1..], k)
  }

  /** Places `x` after every entry with a larger count and before the rest. */
  function Insert(x: Entry, t: seq<Entry>): (r: seq<Entry>)
    requires SortedByCount(t)
    ensures SortedByCount(r)
    ensures multiset(r) == multiset(t) + multiset{x}
    ensures |r| == |t| + 1
  {
    if t == [] then [x]
    else if t[0].count > x.count then
      var rest := Insert(x, t[1..]);
      InsertBehind(x, t, rest);
      [t[0]] + rest
    else
      SortedCons(x, t);
      assert multiset([x] + t) == multiset{x} + multiset(t);
      [x] + t
  }

  /** The step of Insert that passes over the head of `t`. */
  lemma InsertBehind(x: Entry, t: seq<Entry>, rest: seq<Entry>)
    requires SortedByCount(t) && t != [] && t[0].count > x.count
    requires SortedByCount(rest) && multiset(rest) == multiset(t[1..]) + multiset{x}
    ensures SortedByCount([t[0]] + rest)
    ensures multiset([t[0]] + rest) == multiset(t) + multiset{x}
  {
    assert t == [t[0]] + t[1..];
    forall j | 0 <= j < |rest| ensures rest[j].count <= t[0].count {
      assert rest[j] in multiset(rest);
    }
    SortedCons(t[0], rest);
  }

  lemma SortedCons(h: Entry, s: seq<Entry>)
    requires SortedByCount(s)
    requires |s| > 0 ==> s[0].count <= h.count
    ensures SortedByCount([h] + s)
  {
  }

  /** Python's `sorted(items, key=count, reverse=True)`: highest count first,
      and entries with equal counts keep their original order. */
  function SortByCount(s: seq<Entry>): (r: seq<Entry>)
    ensures SortedByCount(r)
    ensures multiset(r) == multiset(s)
    ensures |r| == |s|
  {
    if s == [] then []
    else
      assert s == [s[0]] + s[1..];
      Insert(s[0], SortByCount(s[1..]))
  }

  /** `sorted(...)[:10]`: the entries the leaderboard shows, in rank order. */
  function TopInviters(s: seq<Entry>): (r: seq<Entry>)
    ensures |r| == if |s| < PageSize then |s| else PageSize
  {
    var sorted := SortByCount(s);
    sorted[..if |s| < PageSize then |s| else PageSize]
  }

  /** The label in front of rank `i` (counted from 0): a medal for the first
      three, `"{i+1}."` after that. */
  function RankLabel(i: nat): string {
    if i < 3 then Medals[i] else IntToString(i + 1) + "."
  }

  lemma {:induction false} WithCountConcat(a: seq<Entry>, b: seq<Entry>, k: int)
    ensures WithCount(a + b, k) == WithCount(a, k) + WithCount(b, k)
  {
    if a != [] {
      assert a + b == [a[0]] + (a[1..] + b);
      assert a == [a[0]] + a[1..];
      WithCountCons(a[0], a[1..] + b, k);
      WithCountCons(a[0], a[1..], k);
      WithCountConcat(a[1..], b, k);
    } else {
      assert a + b == b;
    }
  }

  lemma {:induction false} WithCountInsert(x: Entry, t: seq<Entry>, k: int)
    requires SortedByCount(t)
    ensures WithCount(Insert(x, t), k) == (if x.count == k then [x] else []) + WithCount(t, k)
  {
    if t == [] {
      assert Insert(x, t) == [x] + [];
      WithCountCons(x, [], k);
    } else if t[0].count > x.count {
      WithCountInsert(x, t[1..], k);
      assert Insert(x, t) == [t[0]] + Insert(x, t[1..]);
      assert t == [t[0]] + t[1..];
      WithCountPassOver(t[0], x, Insert(x, t[1..]), t[1..], k);
    } else {
      assert Insert(x, t) == [x] + t;
      WithCountCons(x, t, k);
    }
  }

  lemma WithCountPassOver(h: Entry, x: Entry, s: seq<Entry>, tail: seq<Entry>, k: int)
    requires h.count > x.count
    requires WithCount(s, k) == (if x.count == k then [x] else []) + WithCount(tail, k)
    ensures WithCount([h] + s, k) == (if x.count == k then [x] else []) + WithCount([h] + tail, k)
  {
    WithCountCons(h, s, k);
    WithCountCons(h, tail, k);
    if x.count == k {
      assert h.count != k;
    }
  }

  lemma WithCountCons(e: Entry, s: seq<Entry>, k: int)
    ensures WithCount([e] + s, k) == (if e.count == k then [e] else []) + WithCount(s, k)
  {
    assert ([e] + s)[0] == e;
    assert ([e] + s)[1..] == s;
  }

  /** The sort is stable: for every count, the entries with that count appear
      in the sorted list in exactly their original order. */
  lemma {:induction false} SortIsStable(s: seq<Entry>, k: int)
    ensures WithCount(SortByCount(s), k) == WithCount(s, k)
  {
    if s != [] {
      SortIsStable(s[1..], k);
      WithCountInsert(s[0], SortByCount(s[1..]), k);
    }
  }

  lemma {:induction false} SortKeepsUnique(s: seq<Entry>)
    requires Unique(s)
    ensures Unique(SortByCount(s))
  {
    if s != [] {
      SortKeepsUnique(s[1..]);
      var t := SortByCount(s[1..]);
      forall e | e in t ensures e.user != s[0].user {
        assert e in multiset(s[1..]);
      }
      InsertKeepsUnique(s[0], t);
    }
  }

  lemma {:induction false} InsertKeepsUnique(x: Entry, t: seq<Entry>)
    requires SortedByCount(t) && Unique(t)
    requires forall e :: e in t ==> e.user != x.user
    ensures Unique(Insert(x, t))
  {
    if t == [] {
    } else if t[0].count > x.count {
      var rest := Insert(x, t[1..]);
      InsertTail(x, t);
      InsertKeepsUnique(x, t[1..]);
      NoneHasUser(rest, multiset(t[1..]) + multiset{x}, t[0].user);
      UniqueCons(t[0], rest);
      assert Insert(x, t) == [t[0]] + rest;
    } else {
      UniqueCons(x, t);
      assert Insert(x, t) == [x] + t;
    }
  }

  /** What inserting behind the head of `t` needs to know about the tail. */
  lemma InsertTail(x: Entry, t: seq<Entry>)
    requires t != [] && SortedByCount(t) && Unique(t)
    requires forall e :: e in t ==> e.user != x.user
    ensures SortedByCount(t[1..]) && Unique(t[1..])
    ensures forall e :: e in t[1..] ==> e.user != x.user
    ensures forall e :: e in multiset(t[1..]) + multiset{x} ==> e.user != t[0].user
  {
    assert t == [t[0]] + t[1..];
    forall e | e in multiset(t[1..]) + multiset{x} ensures e.user != t[0].user {
      if e != x {
        var j :| 0 <= j < |t[1..]| && t[1..][j] == e;
        assert t[j + 1] == e;
      }
    }
  }

  /** Every entry of `s` is one of `m`, and none of `m` belongs to user `u`. */
  lemma NoneHasUser(s: seq<Entry>, m: multiset<Entry>, u: UserId)
    requires multiset(s) == m
    requires forall e :: e in m ==> e.user != u
    ensures forall j :: 0 <= j < |s| ==> s[j].user != u
  {
    forall j | 0 <= j < |s| ensures s[j].user != u {
      assert s[j] in multiset(s);
    }
  }

  lemma UniqueCons(h: Entry, s: seq<Entry>)
    requires Unique(s)
    requires forall j :: 0 <= j < |s| ==> s[j].user != h.user
    ensures Unique([h] + s)
  {
  }

  /** Each shown entry is a pair of the group's table, with the count the
      table holds for that user, and no user is listed twice. */
  lemma TopInvitersFromTable(s: seq<Entry>)
    requires Unique(s)
    ensures var top := TopInviters(s);
      && Unique(top)
      && (forall e :: e in top ==> e in s && CountOf(s, e.user) == e.count)
  {
    var sorted := SortByCount(s);
    var top := TopInviters(s);
    SortKeepsUnique(s);
    forall e | e in top ensures e in s {
      assert e in sorted;
      assert e in multiset(sorted);
    }
  }

  /** The shown entries are ordered by count, highest first, and no entry left
      out has a larger count than the last one shown. */
  lemma TopInvitersBest(s: seq<Entry>)
    requires |s| > 0
    ensures var top := TopInviters(s);
      && SortedByCount(top)
      && (forall e :: e in s && e !in top ==> e.count <= top[|top| - 1].count)
  {
    var sorted := SortByCount(s);
    var top := TopInviters(s);
    var rest := sorted[|top|..];
    assert sorted == top + rest;
    forall e | e in s && e !in top ensures e in rest {
      LeftOut(s, top, rest, e);
    }
    SortedTail(sorted, |top|);
  }

  lemma LeftOut(s: seq<Entry>, top: seq<Entry>, rest: seq<Entry>, e: Entry)
    requires multiset(s) == multiset(top + rest)
    requires e in s && e !in top
    ensures e in rest
  {
    assert e in multiset(s);
    assert multiset(top + rest) == multiset(top) + multiset(rest);
  }

  lemma SortedTail(s: seq<Entry>, n: nat)
    requires SortedByCount(s) && 0 < n <= |s|
    ensures forall e :: e in s[n..] ==> e.count <= s[n - 1].count
  {
    forall e | e in s[n..] ensures e.count <= s[n - 1].count {
      var j :| 0 <= j < |s[n..]| && s[n..][j] == e;
      assert s[n + j] == e;
    }
  }

  /** Ties keep insertion order: for every count, the shown entries with that
      count are the first ones of the group's table with that count. */
  lemma TopInvitersKeepOrder(s: seq<Entry>, k: int)
    ensures var w := WithCount(TopInviters(s), k);
      |w| <= |WithCount(s, k)| && w == WithCount(s, k)[..|w|]
  {
    var sorted := SortByCount(s);
    var top := TopInviters(s);
    assert sorted == top + sorted[|top|..];
    WithCountConcat(top, sorted[|top|..], k);
    SortIsStable(s, k);
  }

  /** Distinct ranks get distinct labels. */
  lemma RankLabelsDistinct(i: nat, j: nat)
    requires i != j
    ensures RankLabel(i) != RankLabel(j)
  {
    if i >= 3 && j >= 3 {
      var a, b := IntToString(i + 1), IntToString(j + 1);
      IntToStringInjective(i + 1, j + 1);
      if |a| == |b| {
        var k :| 0 <= k < |a| && a[k] != b[k];
        assert (a + ".")[k] != (b + ".")[k];
      }
    } else {
      assert |Medals[0]| == |Medals[1]| == |Medals[2]| == 1;
    }
  }
}

=== FILE: numerals.dfy ===
/** Python's `str(int)` and `int(str)` for base-10 integers, as the bot uses them
    for the leaderboard button payload and for the keys of the saved JSON file. */
module Numerals {
  import opened Options

  predicate IsDigit(c: char) {
    '0' <= c <= '9'
  }

  /** The characters `int()` strips around an ASCII argument: space, tab, line
      feed, vertical tab, form feed and carriage return. The information
      separators U+001C to U+001F are not among them. */
  predicate IsSpace(c: char) {
    c == ' ' || c == '\t' || c == '\n' || c == '\r' || c == '\U{0B}' || c == '\U{0C}'
  }

  predicate AllDigits(s: string) {
    forall i :: 0 <= i < |s| ==> IsDigit(s[i])
  }

  function DigitChar(d: nat): (c: char)
    requires d < 10
    ensures IsDigit(c) && c as int - '0' as int == d
  {
    ('0' as int + d) as char
  }

  /** Decimal digits of `n`, without leading zeros (as Python's `str` writes them). */
  function NatToString(n: nat): (r: string)
    ensures |r| >= 1 && AllDigits(r)
    ensures (r[0] == '0') <==> (n == 0)
    ensures n < 10 <==> |r| == 1
    decreases n
  {
    if n < 10 then [DigitChar(n)] else NatToString(n / 10) + [DigitChar(n % 10)]
  }

  /** Python's `str(n)` for an integer: a minus sign for negatives, then the
      digits, with no leading zero unless the number is 0. */
  function IntToString(n: int): (r: string)
    ensures |r| >= 1
    ensures n < 0 <==> r[0] == '-'
    ensures forall i :: (if n < 0 then 1 else 0) <= i < |r| ==> IsDigit(r[i])
    ensures IsDigit(r[|r| - 1])
    ensures r[0] == '0' ==> r == "0"
    ensures n < 0 ==> |r| >= 2 && r[1] != '0'
  {
    if n < 0 then "-" + NatToString(-n) else NatToString(n)
  }

  /** Value of a string of decimal digits, most significant first. */
  function DigitsValue(s: string): nat
    requires AllDigits(s)
  {
    if s == [] then 0 else 10 * DigitsValue(s[..|s| - 1]) + (s[|s| - 1] as int - '0' as int)
  }

  function LeftStrip(s: string): (r: string)
    ensures |r| <= |s|
  {
    if |s| > 0 && IsSpace(s[0]) then LeftStrip(s[1..]) else s
  }

  function RightStrip(s: string): (r: string)
    ensures |r| <= |s|
  {
    if |s| > 0 && IsSpace(s[|s| - 1]) then RightStrip(s[..|s| - 1]) else s
  }

  /** The body of an integer literal that `int()` accepts: digits, where single
      underscores may separate two digits. */
  predicate WellFormedBody(b: string) {
    && |b| > 0
    && IsDigit(b[0])
    && IsDigit(b[|b| - 1])
    && (forall i :: 0 <= i < |b| ==> IsDigit(b[i]) || b[i] == '_')
    && (forall i :: 0 <= i < |b| - 1 ==> !(b[i] == '_' && b[i + 1] == '_'))
  }

  function DropUnderscores(b: string): (r: string)
    ensures |r| <= |b|
    ensures (forall i :: 0 <= i < |b| ==> IsDigit(b[i]) || b[i] == '_') ==> AllDigits(r)
    ensures AllDigits(b) ==> r == b
  {
    if b == [] then []
    else (if b[0] == '_' then [] else [b[0]]) + DropUnderscores(b[1..])
  }

  function ParseBody(b: string): Option<nat> {
    if WellFormedBody(b) then Some(DigitsValue(DropUnderscores(b))) else None
  }

  /** Python's `int(s)` in base 10: surrounding whitespace is ignored, an optional
      sign, then the digits; anything else raises ValueError, modelled as None. */
  function ParseInt(s: string): Option<int> {
    ParseSigned(RightStrip(LeftStrip(s)))
  }

  /** An optional sign followed by the body of the literal. */
  function ParseSigned(t: string): Option<int> {
    if |t| > 0 && (t[0] == '-' || t[0] == '+') then
      match ParseBody(t[1..])
      case None => None
      case Some(v) => var signed: int := if t[0] == '-' then -(v as int) else v; Some(signed)
    else
      match ParseBody(t)
      case None => None
      case Some(v) => Some(v)
  }

  lemma {:induction false} DigitsValueOfNatToString(n: nat)
    ensures DigitsValue(NatToString(n)) == n
    decreases n
  {
    var r := NatToString(n);
    if n < 10 {
      assert r[..0] == [];
    } else {
      DigitsValueOfNatToString(n / 10);
      assert r[..|r| - 1] == NatToString(n / 10);
    }
  }

  lemma ParseBodyOfNatToString(n: nat)
    ensures ParseBody(NatToString(n)) == Some(n)
  {
    var d := NatToString(n);
    assert WellFormedBody(d);
    DigitsValueOfNatToString(n);
  }

  lemma {:induction false} StripIntToString(n: int)
    ensures RightStrip(LeftStrip(IntToString(n))) == IntToString(n)
  {
    var s := IntToString(n);
    assert !IsSpace(s[0]) && !IsSpace(s[|s| - 1]);
  }

  lemma ParseSignedNegative(d: string, v: nat)
    requires ParseBody(d) == Some(v)
    ensures ParseSigned("-" + d) == Some(-(v as int))
  {
    assert ("-" + d)[1..] == d;
  }

  lemma ParseSignedUnsigned(d: string, v: nat)
    requires ParseBody(d) == Some(v) && IsDigit(d[0])
    ensures ParseSigned(d) == Some(v)
  {
  }

  /** `int(str(n)) == n` for every integer, negative ones included. */
  lemma ParseIntOfIntToString(n: int)
    ensures ParseInt(IntToString(n)) == Some(n)
  {
    StripIntToString(n);
    ParseSignedIntToString(n);
  }

  lemma ParseSignedIntToString(n: int)
    ensures ParseSigned(IntToString(n)) == Some(n)
  {
    IntToStringCases(n);
    if n < 0 {
      ParseNegative(IntToString(n), -n);
    } else {
      ParseNonNegative(IntToString(n), n);
    }
  }

  lemma IntToStringCases(n: int)
    ensures n < 0 ==> IntToString(n) == "-" + NatToString(-n)
    ensures n >= 0 ==> IntToString(n) == NatToString(n)
  {
  }

  lemma ParseNegative(s: string, m: nat)
    requires s == "-" + NatToString(m)
    ensures ParseSigned(s) == Some(-(m as int))
  {
    ParseBodyOfNatToString(m);
    ParseSignedNegative(NatToString(m), m);
  }

  lemma ParseNonNegative(s: string, m: nat)
    requires s == NatToString(m)
    ensures ParseSigned(s) == Some(m)
  {
    ParseBodyOfNatToString(m);
    ParseSignedUnsigned(NatToString(m), m);
  }

  /** `int` ignores whitespace around the number: `int("  " + str(n) + "\n") == n`. */
  lemma ParseIntPadded(pre: string, n: int, post: string)
    requires forall i :: 0 <= i < |pre| ==> IsSpace(pre[i])
    requires forall i :: 0 <= i < |post| ==> IsSpace(post[i])
    ensures ParseInt(pre + IntToString(n) + post) == Some(n)
  {
    var d := IntToString(n);
    assert pre + d + post == pre + (d + post);
    LeftStripSpaces(pre, d + post);
    assert LeftStrip(d + post) == d + post by {
      assert (d + post)[0] == d[0];
    }
    RightStripSpaces(d, post);
    assert RightStrip(d) == d;
    ParseIntOfIntToString(n);
    StripIntToString(n);
  }

  lemma {:induction false} LeftStripSpaces(pre: string, s: string)
    requires forall i :: 0 <= i < |pre| ==> IsSpace(pre[i])
    ensures LeftStrip(pre + s) == LeftStrip(s)
  {
    if pre != [] {
      assert (pre + s)[1..] == pre[1..] + s;
      LeftStripSpaces(pre[1..], s);
    } else {
      assert pre + s == s;
    }
  }

  lemma {:induction false} RightStripSpaces(s: string, post: string)
    requires forall i :: 0 <= i < |post| ==> IsSpace(post[i])
    ensures RightStrip(s + post) == RightStrip(s)
    decreases |post|
  {
    if post != [] {
      var init := post[..|post| - 1];
      assert (s + post)[..|s + post| - 1] == s + init;
      RightStripSpaces(s, init);
    } else {
      assert s + post == s;
    }
  }

  /** The information separators are not stripped: `int("\x1c5")` raises. */
  lemma SeparatorNotStripped(sep: char, n: int)
    requires '\U{1C}' <= sep <= '\U{1F}'
    ensures ParseInt([sep] + IntToString(n)).None?
  {
    RejectsLeading(sep, IntToString(n));
  }

  lemma RejectsLeading(sep: char, d: string)
    requires '\U{1C}' <= sep <= '\U{1F}'
    requires |d| > 0 && IsDigit(d[|d| - 1])
    ensures ParseInt([sep] + d).None?
  {
    var s := [sep] + d;
    assert s[0] == sep && s[|s| - 1] == d[|d| - 1];
    assert LeftStrip(s) == s;
    assert RightStrip(s) == s;
  }

  /** Distinct integers are written differently. */
  lemma IntToStringInjective(m: int, n: int)
    ensures IntToString(m) == IntToString(n) ==> m == n
  {
    ParseIntOfIntToString(m);
    ParseIntOfIntToString(n);
  }
}

=== FILE: options.dfy ===
/** The optional value returned by the parsing and lookup functions: `None`
    where Python raises or a key is missing. */
module Options {
  datatype Option<T> = None | Some(value: T)
}

=== FILE: persistence.dfy ===
/** The key conversion around the JSON file `inviter_stats.json`. Saving writes
    every chat id and user id as its decimal string; loading reads them back
    with `int`. A JSON object is a list of (name, value) members. What the file
    holds may repeat a name; `Decode` gives the dicts `json.load` returns, in
    which every name is distinct. */
module Persistence {
  import opened Options
  import opened Numerals
  import opened InviteTable
  import opened JsonObjects

  /** A chat's object: user id strings to counts. */
  type Users = seq<(string, int)>

  /** The whole object: chat id strings to the chat's object. */
  type Document = seq<(string, Users)>

  /** One chat's counter table as `json.dump` writes it: each user id becomes
      its decimal string, the order of the entries is kept. */
  function SaveUsers(s: seq<Entry>): (r: Users)
    ensures |r| == |s|
    decreases |s|
  {
    if s == [] then []
    else
      var last := s[|s| - 1];
      SaveUsers(s[..|s| - 1]) + [(IntToString(last.user), last.count)]
  }

  /** `{str(k): dict(v) for k, v in group_stats.items()}` as written to the
      file; `order` is the order in which the table holds its chats. */
  function SaveDoc(t: Table, order: seq<ChatId>): (r: Document)
    requires forall c :: c in order ==> c in t
    ensures |r| == |order|
    decreases |order|
  {
    if order == [] then []
    else
      var last := order[|order| - 1];
      SaveDoc(t, order[..|order| - 1]) + [(IntToString(last), SaveUsers(t[last]))]
  }

  /** `{int(k): v for k, v in users.items()}`: None when some key is not an
      integer (Python raises ValueError); a later key naming the same user
      overwrites the count and keeps the first position. */
  function LoadUsers(p: Users): (r: Option<seq<Entry>>)
    ensures r.Some? ==> Unique(r.value)
    decreases |p|
  {
    if p == [] then Some([])
    else
      var init := p[..|p| - 1];
      var last := p[|p| - 1];
      match LoadUsers(init)
      case None => None
      case Some(acc) =>
        match ParseInt(last.0)
        case None => None
        case Some(u) =>
          PutUnique(acc, u, last.1);
          Some(Put(acc, u, last.1))
  }

  /** What `load_stats` leaves behind: the table and whether every key parsed. */
  datatype Loaded = Loaded(table: Table, ok: bool)

  /** The loop of `load_stats` over the file's chats: each chat's table
      replaces the one held for that chat id. At the first key that is not an
      integer Python raises, leaving the chats loaded so far in place. */
  function LoadInto(t: Table, doc: Document): Loaded
    decreases |doc|
  {
    if doc == [] then Loaded(t, true)
    else
      var init := doc[..|doc| - 1];
      var last := doc[|doc| - 1];
      var prev := LoadInto(t, init);
      if !prev.ok then prev
      else
        var chat := ParseInt(last.0);
        var users := LoadUsers(last.1);
        if chat.Some? && users.Some? then Loaded(prev.table[chat.value := users.value], true)
        else Loaded(prev.table, false)
  }

  /** The chat tables `load_stats` builds list each user once. */
  lemma {:induction false} LoadIntoValid(t: Table, doc: Document)
    requires ValidTable(t)
    ensures ValidTable(LoadInto(t, doc).table)
    decreases |doc|
  {
    if doc != [] {
      LoadIntoValid(t, doc[..|doc| - 1]);
    }
  }

  /** A chat's object loads exactly when every one of its keys is an integer. */
  lemma {:induction false} LoadUsersSucceeds(p: Users)
    ensures LoadUsers(p).Some? <==> forall i :: 0 <= i < |p| ==> ParseInt(p[i].0).Some?
    decreases |p|
  {
    if p != [] {
      var init := p[..|p| - 1];
      assert LoadUsers(p).Some? <==> LoadUsers(init).Some? && ParseInt(p[|p| - 1].0).Some?;
      LoadUsersSucceeds(init);
      assert forall i :: 0 <= i < |init| ==> init[i] == p[i];
    }
  }

  /** Every key of one of the file's chats, and the chat key itself, is an integer. */
  predicate ChatLoads(e: (string, Users)) {
    ParseInt(e.0).Some? && LoadUsers(e.1).Some?
  }

  /** `load_stats` completes exactly when every chat key and every user key of
      the file is an integer. */
  lemma {:induction false} LoadIntoSucceeds(t: Table, doc: Document)
    ensures LoadInto(t, doc).ok <==> forall i :: 0 <= i < |doc| ==> ChatLoads(doc[i])
    decreases |doc|
  {
    if doc != [] {
      var init := doc[..|doc| - 1];
      LoadIntoOkLast(t, doc);
      LoadIntoSucceeds(t, init);
      AllChatsLoadLast(doc, init);
    }
  }

  lemma AllChatsLoadLast(doc: Document, init: Document)
    requires doc != [] && init == doc[..|doc| - 1]
    ensures (forall i :: 0 <= i < |doc| ==> ChatLoads(doc[i])) <==>
      (forall i :: 0 <= i < |init| ==> ChatLoads(init[i])) && ChatLoads(doc[|doc| - 1])
  {
    assert forall i :: 0 <= i < |init| ==> init[i] == doc[i];
  }

  lemma LoadIntoOkLast(t: Table, doc: Document)
    requires doc != []
    ensures LoadInto(t, doc).ok <==> LoadInto(t, doc[..|doc| - 1]).ok && ChatLoads(doc[|doc| - 1])
  {
  }

  lemma LoadUsersLast(p: Users, acc: seq<Entry>, u: UserId)
    requires p != [] && LoadUsers(p[..|p| - 1]) == Some(acc)
    requires ParseInt(p[|p| - 1].0) == Some(u)
    ensures Unique(acc) && LoadUsers(p) == Some(Put(acc, u, p[|p| - 1].1))
  {
  }

  /** Loading a saved chat table gives back the same entries in the same order. */
  lemma {:induction false} LoadSaveUsers(s: seq<Entry>)
    requires Unique(s)
    ensures LoadUsers(SaveUsers(s)) == Some(s)
    decreases |s|
  {
    if s != [] {
      var init := s[..|s| - 1];
      var last := s[|s| - 1];
      var p := SaveUsers(s);
      SaveUsersLast(s);
      assert Unique(init) by {
        assert forall i :: 0 <= i < |init| ==> init[i] == s[i];
      }
      LoadSaveUsers(init);
      ParseIntOfIntToString(last.user);
      LoadUsersLast(p, init, last.user);
      PutUnlisted(s);
    }
  }

  lemma SaveUsersLast(s: seq<Entry>)
    requires s != []
    ensures var p := SaveUsers(s);
      && p[..|p| - 1] == SaveUsers(s[..|s| - 1])
      && p[|p| - 1] == (IntToString(s[|s| - 1].user), s[|s| - 1].count)
  {
  }

  /** The last entry of a table without repeated users is what putting it
      after the others gives. */
  lemma PutUnlisted(s: seq<Entry>)
    requires s != [] && Unique(s)
    ensures Put(s[..|s| - 1], s[|s| - 1].user, s[|s| - 1].count) == s
  {
    var init := s[..|s| - 1];
    var last := s[|s| - 1];
    assert !Listed(init, last.user);
    PutShape(init, last.user, last.count);
    assert s == init + [Entry(last.user, last.count)];
  }

  lemma LoadIntoLast(t: Table, doc: Document, c: ChatId, users: seq<Entry>)
    requires doc != []
    requires LoadInto(t, doc[..|doc| - 1]).ok
    requires ParseInt(doc[|doc| - 1].0) == Some(c) && LoadUsers(doc[|doc| - 1].1) == Some(users)
    ensures LoadInto(t, doc) == Loaded(LoadInto(t, doc[..|doc| - 1]).table[c := users], true)
  {
  }

  /** Loading a saved file puts back, over what was held, every chat it names
      with the table it had. */
  lemma {:induction false} LoadSaveDoc(t0: Table, t: Table, order: seq<ChatId>)
    requires ValidTable(t)
    requires forall c :: c in order ==> c in t
    ensures LoadInto(t0, SaveDoc(t, order)) == Loaded(t0 + Restrict(t, order), true)
    decreases |order|
  {
    var doc := SaveDoc(t, order);
    if order == [] {
      assert t0 + map[] == t0;
    } else {
      var init := order[..|order| - 1];
      var last := order[|order| - 1];
      assert forall c :: c in init ==> c in order;
      assert LoadInto(t0, doc[..|doc| - 1]) == Loaded(t0 + Restrict(t, init), true) by {
        assert doc[..|doc| - 1] == SaveDoc(t, init);
        LoadSaveDoc(t0, t, init);
      }
      assert ParseInt(doc[|doc| - 1].0) == Some(last) by {
        ParseIntOfIntToString(last);
      }
      assert LoadUsers(doc[|doc| - 1].1) == Some(t[last]) by {
        LoadSaveUsers(t[last]);
      }
      LoadIntoLast(t0, doc, last, t[last]);
      UnionUpdate(t0, Restrict(t, init), last, t[last]);
    }
  }

  lemma UnionUpdate(a: Table, b: Table, k: ChatId, v: seq<Entry>)
    ensures a + b[k := v] == (a + b)[k := v]
  {
  }

  /** The chats of `t` named in `order`. */
  function Restrict(t: Table, order: seq<ChatId>): (r: Table)
    requires forall c :: c in order ==> c in t
    decreases |order|
  {
    if order == [] then map[]
    else
      var last := order[|order| - 1];
      assert forall c :: c in order[..|order| - 1] ==> c in order;
      Restrict(t, order[..|order| - 1])[last := t[last]]
  }

  lemma {:induction false} RestrictAll(t: Table, order: seq<ChatId>)
    requires forall c :: c in t <==> c in order
    ensures Restrict(t, order) == t
  {
    var r := Restrict(t, order);
    RestrictPart(t, order);
    forall c ensures c in r <==> c in t {
      assert c in r <==> c in order;
      assert c in t <==> c in order;
    }
    assert r.Keys == t.Keys;
    forall c | c in t ensures r[c] == t[c] {
      assert c in r;
    }
  }

  lemma {:induction false} RestrictPart(t: Table, order: seq<ChatId>)
    requires forall c :: c in order ==> c in t
    ensures forall c :: c in Restrict(t, order) <==> c in order
    ensures forall c :: c in Restrict(t, order) ==> Restrict(t, order)[c] == t[c]
    decreases |order|
  {
    if order != [] {
      var init := order[..|order| - 1];
      assert forall c :: c in init ==> c in order;
      RestrictPart(t, init);
      assert order == init + [order[|order| - 1]];
    }
  }

  /** Saving the whole table (each chat once) and loading it into the empty
      table at start-up reproduces the table exactly. */
  lemma SaveLoadRoundTrip(t: Table, order: seq<ChatId>)
    requires ValidTable(t)
    requires forall c :: c in t <==> c in order
    ensures LoadInto(map[], SaveDoc(t, order)) == Loaded(t, true)
  {
    LoadSaveDoc(map[], t, order);
    RestrictAll(t, order);
    assert map[] + t == t;
  }

  /** Each chat's object of the file as the dict `json.load` makes of it. */
  function InnerObjects(file: Document): Document {
    seq(|file|, i requires 0 <= i < |file| => (file[i].0, JsonObject(file[i].1)))
  }

  /** `json.load` on the file: the outer object and each chat's object, with
      repeated names collapsed. */
  function Decode(file: Document): Document {
    JsonObject(InnerObjects(file))
  }

  lemma {:induction false} SaveUsersNames(s: seq<Entry>)
    ensures forall i :: 0 <= i < |s| ==> SaveUsers(s)[i] == (IntToString(s[i].user), s[i].count)
    decreases |s|
  {
    if s != [] {
      var init := s[..|s| - 1];
      var last := s[|s| - 1];
      SaveUsersNames(init);
      assert SaveUsers(s) == SaveUsers(init) + [(IntToString(last.user), last.count)];
    }
  }

  /** A chat table without repeated users is written with distinct names. */
  lemma SaveUsersDistinct(s: seq<Entry>)
    requires Unique(s)
    ensures DistinctNames(SaveUsers(s))
  {
    var p := SaveUsers(s);
    SaveUsersNames(s);
    forall i, j | 0 <= i < j < |p| ensures p[i].0 != p[j].0 {
      IntToStringInjective(s[i].user, s[j].user);
    }
  }

  lemma {:induction false} SaveDocNames(t: Table, order: seq<ChatId>)
    requires forall c :: c in order ==> c in t
    ensures forall i :: 0 <= i < |order| ==>
      SaveDoc(t, order)[i] == (IntToString(order[i]), SaveUsers(t[order[i]]))
    decreases |order|
  {
    if order != [] {
      var init := order[..|order| - 1];
      var last := order[|order| - 1];
      var doc := SaveDoc(t, order);
      assert forall c :: c in init ==> c in order;
      SaveDocNames(t, init);
      assert doc == SaveDoc(t, init) + [(IntToString(last), SaveUsers(t[last]))];
      forall i | 0 <= i < |order|
        ensures doc[i] == (IntToString(order[i]), SaveUsers(t[order[i]]))
      {
        if i < |init| {
          assert order[i] == init[i];
        }
      }
    }
  }

  /** No chat is listed twice. */
  predicate NoRepeats(order: seq<ChatId>) {
    forall i, j :: 0 <= i < j < |order| ==> order[i] != order[j]
  }

  /** A file written by `save_stats` has no repeated name, so `json.load`
      returns it as written. */
  lemma DecodeSaveDoc(t: Table, order: seq<ChatId>)
    requires ValidTable(t) && NoRepeats(order)
    requires forall c :: c in order ==> c in t
    ensures Decode(SaveDoc(t, order)) == SaveDoc(t, order)
  {
    var doc := SaveDoc(t, order);
    SaveDocNames(t, order);
    assert InnerObjects(doc) == doc by {
      forall i | 0 <= i < |doc| ensures InnerObjects(doc)[i] == doc[i] {
        SaveUsersDistinct(t[order[i]]);
        JsonObjectOfDistinct(SaveUsers(t[order[i]]));
      }
    }
    forall i, j | 0 <= i < j < |doc| ensures doc[i].0 != doc[j].0 {
      IntToStringInjective(order[i], order[j]);
    }
    JsonObjectOfDistinct(doc);
  }

  /** Saving the whole table to the file and loading the file at start-up
      reproduces the table exactly. */
  lemma FileRoundTrip(t: Table, order: seq<ChatId>)
    requires ValidTable(t) && NoRepeats(order)
    requires forall c :: c in t <==> c in order
    ensures LoadInto(map[], Decode(SaveDoc(t, order))) == Loaded(t, true)
  {
    DecodeSaveDoc(t, order);
    SaveLoadRoundTrip(t, order);
  }

  lemma {:induction false} LastValueInner(file: Document, k: string)
    ensures LastValue(InnerObjects(file), k).Some? <==> LastValue(file, k).Some?
    ensures LastValue(file, k).Some? ==>
      LastValue(InnerObjects(file), k).value == JsonObject(LastValue(file, k).value)
    decreases |file|
  {
    if file != [] {
      var init := file[..|file| - 1];
      var inner := InnerObjects(file);
      assert inner[..|inner| - 1] == InnerObjects(init);
      LastValueInner(init, k);
    }
  }

  /** Every chat name the file uses is an integer, and so is every user name
      of the last object the file gives that chat name. */
  ghost predicate FileKeysParse(file: Document) {
    forall k :: LastValue(file, k).Some? ==> ChatLoads((k, JsonObject(LastValue(file, k).value)))
  }

  /** Loading the file completes exactly when its chat names and user names
      parse as `FileKeysParse` says. */
  lemma LoadFileSucceeds(t: Table, file: Document)
    ensures LoadInto(t, Decode(file)).ok <==> FileKeysParse(file)
  {
    var doc := Decode(file);
    LoadIntoSucceeds(t, doc);
    JsonObjectDistinct(InnerObjects(file));
    if FileKeysParse(file) {
      forall i | 0 <= i < |doc| ensures ChatLoads(doc[i]) {
        var k := doc[i].0;
        LookupDistinct(doc, i);
        JsonObjectReads(InnerObjects(file), k);
        LastValueInner(file, k);
      }
    } else {
      var k :| LastValue(file, k).Some? && !ChatLoads((k, JsonObject(LastValue(file, k).value)));
      LastValueInner(file, k);
      JsonObjectReads(InnerObjects(file), k);
      var i := LookupFound(doc, k);
      assert !ChatLoads(doc[i]);
    }
  }
}
